=== FILE: README.md ===
# muffin-peewee-aio, modelled in Dafny

A model of the two parts of the Muffin/Peewee-AIO plugin that have behaviour of their own.

- **Field codecs and `Choices`** (`muffin_peewee/fields.py`).
  - The enum fields store a member as its value and turn the value back into the member.
  - The JSON fields serialize on the way to the database and deserialize on the way back.
  - `Choices` is a two-way name/value map built from plain names, a dict or an Enum.
- **The plugin** (`muffin_peewee/__init__.py`).
  - Models registered on a placeholder manager are rebound to the live manager at setup.
  - Setup installs the per-request connection/transaction middleware and registers the migration commands.
  - The startup/shutdown and `async with` hooks connect and disconnect the pool.
  - The pytest fixture `conftest` creates and drops the tables around a test.

Files:

- `wrappers.dfy`: `Option` and `Result`.
- `errors.dfy`: the Python exceptions involved.
- `pydict.dfy`: Python's insertion-ordered `dict`, as an association list with distinct keys. Assigning to an existing key keeps its position and replaces its value.
- `fields.dfy`: enum fields, JSON fields and `Choices`.
- `choices_laws.dfy`: what `Choices` promises for each kind of input, and for deep copy.
- `traces.dfy`: the effects on pools, connections and transactions, as an event trace.
  - `Within` is Python's `async with` over a context that may raise on entry or on exit.
  - `Balanced` says that a trace is properly nested.
- `plugin.dfy`: the plugin state, setup, registry, lifecycle, middleware, properties, commands and `conftest`.

Modelling choices:

- `json.dumps`/`json.loads` are a `JsonCodec`: an opaque pair of functions.
  - Decoding may fail with an exception.
  - The round-trip law `loads(dumps(x)) == x` is the predicate `LawfulCodec`. It is required only where it is used.
- An Enum is a sequence of `(name, value)` members. Names are distinct, and values are distinct, so the Enum has no aliases.
- A peewee-aio manager is an identity plus its URL, backend and the set of models registered on it.
  - Each model's `_manager` is the map `binding`.
  - The dummy manager is `Placeholder`, with identity 0.
- An exception stands for its class and every subclass of it. `json.JSONDecodeError` and `UnicodeDecodeError` are `ValueError` here, as `suppress(TypeError, ValueError)` sees them.
- Foreign effects are parameters: `Fx` says whether a context's entry or exit raises. The handler's result is an `Outcome`.

## Model

| member | source | states |
|---|---|---|
| PyDict.FromPairs | muffin_peewee/fields.py:204-205 | `dict(pairs)` maps each key to the value of the LAST pair carrying it, and lists each key once, at its FIRST occurrence |
| PyDict.FromPairsOfDict | muffin_peewee/fields.py:233 | rebuilding a dict from its own items gives the same dict, with the same order |
| PyDict.Set | muffin_peewee/fields.py:204-205 | `d[k] = v` makes `k` map to `v`, leaves every other key alone, and appends `k` only if it was absent |
| Fields.Lookup | muffin_peewee/fields.py:84 | `enum(value)` gives a member carrying `value`, or ValueError when no member carries it |
| Fields.LookupOwnValue | muffin_peewee/fields.py:84 | in an enum without aliases, a member's own value looks up exactly that member |
| Fields.NewEnumField | muffin_peewee/fields.py:66-70 | an explicit `choices` is kept; otherwise `choices` is one `(value, name)` per member, in declaration order |
| Fields.EnumDbValue | muffin_peewee/fields.py:72-77 | `None` stays `None`; a member is stored as its value |
| Fields.EnumPythonValue | muffin_peewee/fields.py:79-84 | `None` stays `None`; a stored value becomes a member of the field's enum carrying it, or raises ValueError |
| Fields.EnumRoundTrip | muffin_peewee/fields.py:72-84 | `python_value(db_value(m)) == m` for every member and for `None` |
| Fields.EnumDecodeThenEncode | muffin_peewee/fields.py:72-84 | a stored value that decodes to a member is that member's value |
| Fields.DefaultChoicesDecode | muffin_peewee/fields.py:69-84 | each default choice's value decodes to the member the choice names |
| Fields.JsonDbValue | muffin_peewee/fields.py:55-60 | `None` stays `None`; anything else is the serializer's text for it |
| Fields.JsonPythonValue | muffin_peewee/fields.py:47-53 | `None` stays `None`; a non-text column is returned as it is; TypeError/ValueError from the decoder give the value back unchanged; only other decoder errors propagate; a decoded result is what the decoder produced |
| Fields.JsonRoundTrip | muffin_peewee/fields.py:47-60 | under the serializer law, a value (or `None`) written by a text JSON field reads back as itself |
| Fields.JsonUndecodableUnchanged | muffin_peewee/fields.py:49-51 | a text value the decoder rejects is returned unchanged instead of raising |
| Fields.AsyncPGDbValue | muffin_peewee/fields.py:24-26 | the asyncpg JSON field hands the Python value to the driver without serializing it |
| Fields.ArgPairs | muffin_peewee/fields.py:193-201 | the first argument yields `(name, name)`, or `(value, name)` per dict item or per enum member, in their order |
| Fields.NamePairs | muffin_peewee/fields.py:202 | each further plain name yields `(name, name)`, in argument order |
| Fields.Pairs | muffin_peewee/fields.py:193-202 | `pw_choices` is the first argument's pairs, followed by one `(name, name)` per further name, in argument order |
| Fields.NewChoices | muffin_peewee/fields.py:191-205 | the name map knows exactly the names of the arguments, and the value map knows exactly their values |
| Fields.GetAttr | muffin_peewee/fields.py:219-221 | attribute lookup gives a name's value, or the default `None` exactly when item lookup would raise KeyError |
| Fields.GetItem | muffin_peewee/fields.py:223-225 | item lookup gives the value stored under the name; an unknown name raises KeyError |
| Fields.Call | muffin_peewee/fields.py:227-229 | calling with a value gives the name stored under it; an unknown value raises KeyError |
| Fields.Iter | muffin_peewee/fields.py:215-217 | iteration yields `(value, name)` pairs, each answered by calling with its value, covering every known value |
| Fields.JoinShape | muffin_peewee/fields.py:209 | `sep.join(parts)` starts with the first part, ends with the last, and is as long as the parts plus one separator between each two |
| Fields.ToStr | muffin_peewee/fields.py:207-209 | `str(c)` is empty when there are no names. Otherwise it starts with the first name and ends with the last. Its length is the names' lengths plus two per separator, and a `", "` follows the first name. ChoicesLaws.StrListsNamesInOrder gives the full text. |
| Fields.DeepCopyAsWritten | muffin_peewee/fields.py:231-235 | the copy, rebuilt from the name map alone, has exactly the original's name map, order included |
| Fields.DeepCopy | muffin_peewee/fields.py:231-235 | the corrected copy equals the original in both maps |
| ChoicesLaws.NamesMapToThemselves | muffin_peewee/fields.py:191-205 | `Choices("a", "b", ...)`: attribute, item and call lookups of every given name give that name |
| ChoicesLaws.NamesIterAndStr | muffin_peewee/fields.py:202-217 | with distinct names, iteration yields `(n, n)` in argument order, and `str` joins the names with `", "` |
| ChoicesLaws.NamesPairs | muffin_peewee/fields.py:193-202 | plain names give their `(n, n)` pairs in argument order |
| ChoicesLaws.NamesKeys | muffin_peewee/fields.py:204 | with distinct names, the name map lists the names in argument order |
| ChoicesLaws.DictNamesAreTheDict | muffin_peewee/fields.py:193-204 | `Choices({name: value})`: the name map is the dict itself, so `c[name] == value` for every item |
| ChoicesLaws.DictReverseLookup | muffin_peewee/fields.py:193-205 | with distinct dict values, `c(value) == name`, and iteration yields `(value, name)` in dict order |
| ChoicesLaws.EnumItems | muffin_peewee/fields.py:197 | an enum stands for the dict `{member.name: member.value}`, in declaration order |
| ChoicesLaws.EnumIsDict | muffin_peewee/fields.py:193-201 | `Choices(SomeEnum, ...)` builds a `Choices` equal to `Choices({member.name: member.value}, ...)` |
| ChoicesLaws.EnumLookups | muffin_peewee/fields.py:197-229 | for an enum, `c[name] == value` and `c(value) == name` per member, and iteration yields `(value, name)` in declaration order |
| ChoicesLaws.UnknownLookups | muffin_peewee/fields.py:219-229 | a name no argument carries gives `None` by attribute and KeyError by item; a value no argument carries gives KeyError by call |
| ChoicesLaws.StrListsNamesInOrder | muffin_peewee/fields.py:207-209 | `str` joins the names, each once, at its first occurrence among the arguments |
| ChoicesLaws.StrExample | muffin_peewee/fields.py:207-209 | a worked example of ChoicesLaws.StrListsNamesInOrder: `str(Choices("a", "b", "c")) == "a, b, c"` |
| ChoicesLaws.JoinThree | muffin_peewee/fields.py:209 | a worked example: `", ".join([x, y, z])` is `x`, `", "`, `y`, `", "`, `z` run together |
| ChoicesLaws.DeepCopyAsWrittenExact | muffin_peewee/fields.py:231-235 | when no name is given twice, the copy as written equals the original |
| ChoicesLaws.DeepCopyAsWrittenLosesValue | muffin_peewee/fields.py:231-235 | `Choices(E, "a")` with `E.a = "A"` answers `c("A") == "a"`; its copy as written raises KeyError; the corrected copy answers `"a"` |
| ChoicesLaws.RedefinedNamePairs | muffin_peewee/fields.py:193-202 | the pairs collected for `Choices(E, "a")` with `E.a = "A"` |
| ChoicesLaws.RedefinedNameMaps | muffin_peewee/fields.py:204-205 | for those pairs, the name map keeps only `a -> "a"`, and the value map still maps `"A"` to `a` |
| ChoicesLaws.CopiedReverseMap | muffin_peewee/fields.py:233 | rebuilt from the name map `a -> "a"`, the value map does not know `"A"` |
| Traces.WithinBalanced | muffin_peewee/__init__.py:176-184 | `async with` around a properly nested body gives a properly nested trace, whatever the context does on entry or exit |
| Traces.Within | muffin_peewee/__init__.py:177-178 | `async with`: a context whose entry raises runs nothing and propagates that exception; once entered, the body runs between the open and a close that comes last and is told whether the body raised; the body's outcome passes unless the exit raises, whose exception then replaces it |
| Traces.BalancedAppend | muffin_peewee/__init__.py:136-151 | two properly nested traces, one after the other, are properly nested |
| Plugin.Init | muffin_peewee/__init__.py:46-63 | a plugin without an application starts on the placeholder manager, in a consistent state |
| Plugin.RegisterOn | muffin_peewee/__init__.py:71-72 | registering adds the model to the manager and binds it there, leaving other models' bindings alone |
| Plugin.RegisterAll | muffin_peewee/__init__.py:71-72 | registering a list of models adds all of them and binds exactly those to the manager |
| Plugin.RegisterAllIdempotent | muffin_peewee/__init__.py:69-73 | rebinding the same models to the same manager twice changes nothing |
| Plugin.Register | muffin_peewee/__init__.py:153-155 | `register` returns the model and binds it to the current manager (the placeholder before setup). The bound models gain exactly that model. Nothing but the manager and the bindings changes, and the state stays consistent. |
| Plugin.Setup | muffin_peewee/__init__.py:65-134 | a new manager for the configured URL; it has all the current manager's models, bound to it; other bindings are unchanged; the middleware goes first iff `auto_connection`; the migration commands are added iff `migrations_enabled`, and then the router is built for the new manager's database; otherwise the router is kept; the resolved options are stored; nothing is connected |
| Plugin.DelayedRegistration | muffin_peewee/__init__.py:61-73 | a model registered before setup is bound to the placeholder; after setup it is bound to the new live manager |
| Plugin.Startup | muffin_peewee/__init__.py:136-138 | `startup` adds one event to the trace and changes nothing else: the current manager is connected once more, and no other manager is connected or disconnected |
| Plugin.Shutdown | muffin_peewee/__init__.py:140-142 | `shutdown` adds one event to the trace and changes nothing else: the current manager is disconnected once more, and no other manager is connected or disconnected |
| Plugin.AEnter | muffin_peewee/__init__.py:144-147 | entering `async with plugin` has the effect of `startup` |
| Plugin.AExit | muffin_peewee/__init__.py:149-151 | leaving `async with plugin` disconnects whatever exception is passing and changes nothing else |
| Plugin.StartupShutdownOnce | muffin_peewee/__init__.py:136-142 | startup then shutdown connect and disconnect the plugin's manager exactly once, leave other managers alone, and keep the trace nested |
| Plugin.ContextIsLifespan | muffin_peewee/__init__.py:136-151 | `async with plugin` connects and disconnects exactly once, like startup then shutdown |
| Plugin.Targets | muffin_peewee/__init__.py:163-169 | with no arguments the tables targeted are exactly the registered models; otherwise exactly the models given |
| Plugin.CreateTables | muffin_peewee/__init__.py:163-165 | `create_tables` adds one table creation and changes nothing else; it covers every registered model when no model is given, and exactly the given models otherwise |
| Plugin.DropTables | muffin_peewee/__init__.py:167-169 | `drop_tables` adds one table drop and changes nothing else; it covers every registered model when no model is given, and exactly the given models otherwise |
| Plugin.TransactionMiddlewareTrace | muffin_peewee/__init__.py:174-178 | with `auto_transaction`: open connection, open transaction, handler, close transaction, close connection, on success and on exception alike; the result or exception is unchanged |
| Plugin.ConnectionMiddlewareTrace | muffin_peewee/__init__.py:180-184 | without `auto_transaction`, only the connection wraps the handler, and no transaction event occurs whatever the contexts do |
| Plugin.ConnectionScope | muffin_peewee/__init__.py:171-186 | the middleware: a failing connection entry is what the request ends with; otherwise the connection opens first and closes last; the inner run sits directly inside it, or inside a transaction that opens second and closes second to last; with no failing context the inner outcome passes |
| Plugin.Serve | muffin_peewee/__init__.py:133-134 | along a chain of middlewares, the handler runs whenever the contexts enter, and with clean contexts the response or exception is the handler's own |
| Plugin.MiddlewareReleases | muffin_peewee/__init__.py:171-186 | whatever the contexts do, an opened connection is closed last; the handler runs iff its scopes were entered; a failing connection entry is what the request ends with, and so is a failing transaction entry unless the connection's exit raises in turn |
| Plugin.ServeBalanced | muffin_peewee/__init__.py:171-186 | a request through any middleware chain leaves a properly nested trace |
| Plugin.InstallMiddleware | muffin_peewee/__init__.py:133-134 | with `auto_connection` the plugin's middleware is inserted first, carrying `auto_transaction`, and the former chain follows unchanged; otherwise the chain is unchanged |
| Plugin.AddCommands | muffin_peewee/__init__.py:75-131 | existing commands are kept in place; the six migration commands are added exactly when `migrations_enabled` |
| Plugin.SetupServe | muffin_peewee/__init__.py:133-134 | after setup with `auto_connection`, the whole former chain and the handler run inside the plugin's scopes; without it the chain is untouched |
| Plugin.ModelBase | muffin_peewee/__init__.py:188-193 | `Model` raises PluginNotInstalledError iff no application is attached; otherwise it belongs to the current manager |
| Plugin.JsonFieldFor | muffin_peewee/__init__.py:195-208 | `JSONField` raises without an application; otherwise the asyncpg backend gives `JSONAsyncPGField`, another postgresql backend `JSONPGField`, anything else `JSONLikeField` |
| Plugin.PropertiesAfterSetup | muffin_peewee/__init__.py:188-208 | before setup `Model` and `JSONField` raise PluginNotInstalledError; after setup `Model` belongs to the new manager and `JSONField` follows the backend its URL resolved to |
| Plugin.Invoke | muffin_peewee/__init__.py:75-131 | a command runs exactly when it is registered and a router was made at setup, and then on that router; otherwise it does not exist. `create` defaults its name to `auto` and passes the current models only with `--auto`. `merge` defaults to `initial`. `migrate` passes its name and `--fake`. `rollback` rolls back the latest migration, `list` reads the done and pending migrations, and `clear` clears the history. |
| Plugin.CommandsIffMigrations | muffin_peewee/__init__.py:75-131 | after setup, the six commands exist iff `migrations_enabled`, and they drive the router of the new manager |
| Plugin.Conftest | muffin_peewee/__init__.py:210-219 | with `pytest_setup_db`: connect, open a connection, create the tables registered so far, run the test, drop all tables registered by then only if the test returned, close both; otherwise only the test runs; the test's outcome passes; a consistent registry stays consistent |
| Plugin.ConftestBalanced | muffin_peewee/__init__.py:210-219 | the fixture keeps the trace properly nested, whether the test passes or raises |
| Plugin.ConftestDropsWhatItCreated | muffin_peewee/__init__.py:213-217 | after a passing test, the tables dropped are those created plus those of the models the test registered |

## Left out

- Peewee, peewee-aio, aio-databases and the SQL backends are not part of this model.
  - Queries, pooling, and the real commit and rollback are left out.
  - Each manager, connection and transaction is only a resource that is opened and closed.
  - A context's `__aexit__` is told whether an exception is passing. It commits when none is and rolls back when one is, and the model records that flag.
- A context's `__aexit__` suppressing an exception is not modelled, because the aio-databases contexts do not suppress.
- Fields.EnumDbValue: only enum members and `None` are modelled as inputs. A raw string or integer handed to `db_value` raises AttributeError at `value.value` in Python, and the model does not cover that.
- Fields.JsonDbValue: the serializer is taken to succeed on the values the field is given. The TypeError `json.dumps` raises on a value it cannot serialize is not modelled.
- Fields.Value: `Choices` accepts any hashable value; the model covers strings and integers.
- Fields.GetAttr: only names that ordinary attribute lookup misses reach `__getattr__`. `_map`, `_rmap` and the dunder methods never do, and the model does not list those names.
- `Choices.__repr__` is left out; it only wraps `str` in `<Choices: …>`.
- `JSONLikeField.__init__` is left out: it falls back to `json.dumps`/`json.loads`, which here is the `JsonCodec` the field holds.
- `JSONPGField` and `JSONAsyncPGField.python_value` belong to playhouse, which is not part of this model. It is listed only as a choice of `Plugin.JSONField`.
- `DateTimeTZField` and the sqlite/pendulum adapters are left out; they are time-zone arithmetic in a third-party library.
- `URLField`, the `TYPE_CHECKING` overloads and `muffin_peewee/types.py` are left out; they only carry types.
- Plugin.Setup: option resolution by Muffin's `BasePlugin.setup` is not modelled. Setup receives the resolved configuration and the backend the URL resolves to. `connection_params` is not modelled.
- Plugin.Setup: `Plugin.manager` is a class attribute, so the placeholder manager is shared by every plugin instance. The model has one plugin.
- Plugin.Invoke: what the peewee-migrate router does is left out: migration naming (`001_test`), diffing and history. The `peewee-list` console output is left out too. The model stops at the router call each command makes.
- `manager.allow_sync()` around each command is left out; it is a peewee-aio mode switch.
- Plugin.Conftest: the connect and the connection of the fixture are taken to succeed. Their failures are modelled for the request middleware only.
- Plugin.Serve: every middleware other than the plugin's is modelled as pass-through: it calls the next handler and hands back its outcome unchanged. A Muffin middleware that answers without calling on, or that replaces the response or exception, is not modelled. The claims that the handler runs and that its outcome passes hold only under this assumption. `Plugin.ServeBalanced` does not depend on it.
- Plugin.StartupShutdownOnce: connect and disconnect failures are not modelled. Whether shutdown still runs after a failed startup is up to the host framework, not this code.
- Async scheduling and cancellation are not modelled beyond one thing: a cancellation is an exception passing through `Within`.
- `Plugin.connection`/`Plugin.transaction` are only the scopes `Connection`/`Transaction` opened by the middleware and `conftest`; their arguments are forwarded and not modelled.

## Findings

| source | as written | input that shows it | evidently intended | confidence | as-written member | corrected member |
|---|---|---|---|---|---|---|
| muffin_peewee/fields.py:231-235 | `__deepcopy__` rebuilds the copy from `_map` alone, so `_rmap` is recomputed from the surviving names | `Choices(E, "a")` with `class E(Enum): a = "A"`: the original answers `c("A") == "a"`, the copy raises KeyError | a deep copy answers every lookup as the original does | medium, not executed | ChoicesLaws.DeepCopyAsWrittenLosesValue | Fields.DeepCopy |

=== FILE: choices_laws.dfy ===
/** What `Choices` promises for each of its three kinds of input, and for copying. */
module ChoicesLaws {
  import opened Wrappers
  import opened Errors
  import opened PyDict
  import opened Fields

  /** `Choices("a", "b", ...)`: every name maps to itself, whichever way it is looked up. */
  lemma NamesMapToThemselves(names: seq<string>, n: string)
    requires |names| > 0 && n in names
    ensures var c := NewChoices(Name(names[0]), names[1..]);
      && GetAttr(c, n) == Some(Str(n))
      && GetItem(c, n) == Ok(Str(n))
      && Call(c, Str(n)) == Ok(n)
  {
    var ps := Pairs(Name(names[0]), names[1..]);
    NamesPairs(names);
    NamePairsLookups(names, n);
    var c := NewChoices(Name(names[0]), names[1..]);
    assert c == Choices(FromPairs(Swap(ps)), FromPairs(ps));
    assert Get(c.names, n) == Some(Str(n));
    assert Get(c.values, Str(n)) == Some(n);
  }

  /** In the pairs of the names, a name and its string value each have one reading. */
  lemma NamePairsLookups(names: seq<string>, n: string)
    requires n in names
    ensures LastValue(Swap(NamePairs(names)), n) == Some(Str(n))
    ensures LastValue(NamePairs(names), Str(n)) == Some(n)
  {
    var ps := NamePairs(names);
    var j :| 0 <= j < |names| && names[j] == n;
    assert Keys(Swap(ps))[j] == n && Keys(ps)[j] == Str(n);
    LastValueUniform(Swap(ps), n, Str(n));
    LastValueUniform(ps, Str(n), n);
  }

  /** ... and with pairwise distinct names, iteration yields `(name, name)` in argument
      order and `str` joins the names with `", "`. */
  lemma NamesIterAndStr(names: seq<string>)
    requires |names| > 0
    requires forall i, j :: 0 <= i < j < |names| ==> names[i] != names[j]
    ensures Iter(NewChoices(Name(names[0]), names[1..])) == NamePairs(names)
    ensures ToStr(NewChoices(Name(names[0]), names[1..])) == Join(names, ", ")
  {
    NamesPairs(names);
    var d: Dict<Value, string> := NamePairsAsDict(names);
    FromPairsOfDict(d);
    NamesKeys(names);
  }

  lemma NamesPairs(names: seq<string>)
    requires |names| > 0
    ensures Pairs(Name(names[0]), names[1..]) == NamePairs(names)
  {
  }

  lemma NamesKeys(names: seq<string>)
    requires |names| > 0
    requires forall i, j :: 0 <= i < j < |names| ==> names[i] != names[j]
    ensures Keys(NewChoices(Name(names[0]), names[1..]).names) == names
  {
    NamesPairs(names);
    assert Keys(Swap(NamePairs(names))) == names;
    DedupOfDistinct(names);
  }

  /** Distinct names give pairs with distinct values. */
  function NamePairsAsDict(names: seq<string>): (d: Dict<Value, string>)
    requires forall i, j :: 0 <= i < j < |names| ==> names[i] != names[j]
    ensures d == NamePairs(names)
  {
    var ps := NamePairs(names);
    assert forall i, j :: 0 <= i < j < |ps| ==> ps[i].0 != ps[j].0 by {
      forall i, j | 0 <= i < j < |ps| ensures ps[i].0 != ps[j].0 {
        assert ps[i].0 == Str(names[i]) && ps[j].0 == Str(names[j]);
      }
    }
    ps
  }

  /** `Choices({name: value, ...})`: the name map is the dict itself, so
      `c[name] == value` for every item. */
  lemma DictNamesAreTheDict(d: Dict<string, Value>)
    ensures NewChoices(FromDict(d), []).names == d
    ensures forall i :: 0 <= i < |d| ==> GetItem(NewChoices(FromDict(d), []), d[i].0) == Ok(d[i].1)
  {
    assert Pairs(FromDict(d), []) == Swap(d);
    SwapSwap(d);
    FromPairsOfDict(d);
  }

  /** ... and when the dict's values are pairwise distinct, `c(value) == name` for every
      item and iteration yields `(value, name)` in dict order. */
  lemma DictReverseLookup(d: Dict<string, Value>)
    requires forall i, j :: 0 <= i < j < |d| ==> d[i].1 != d[j].1
    ensures Iter(NewChoices(FromDict(d), [])) == Swap(d)
    ensures forall i :: 0 <= i < |d| ==> Call(NewChoices(FromDict(d), []), d[i].1) == Ok(d[i].0)
  {
    assert Pairs(FromDict(d), []) == Swap(d);
    var s: Dict<Value, string> := Swap(d);
    FromPairsOfDict(s);
  }

  /** The `{name: value}` dict an enum stands for. */
  function EnumItems(e: Enum): (d: Dict<string, Value>)
    ensures |d| == |e| && forall i :: 0 <= i < |e| ==> d[i] == (e[i].name, e[i].value)
  {
    seq(|e|, i requires 0 <= i < |e| => (e[i].name, e[i].value))
  }

  /** `Choices(SomeEnum, ...)` is `Choices({member.name: member.value, ...}, ...)`. */
  lemma EnumIsDict(e: Enum, rest: seq<string>)
    ensures NewChoices(FromEnum(e), rest) == NewChoices(FromDict(EnumItems(e)), rest)
  {
    assert Pairs(FromEnum(e), rest) == Pairs(FromDict(EnumItems(e)), rest) by {
      assert ArgPairs(FromEnum(e)) == ArgPairs(FromDict(EnumItems(e)));
    }
    SamePairsSameChoices(FromEnum(e), FromDict(EnumItems(e)), rest);
  }

  /** Two first arguments that contribute the same pairs build equal `Choices`. */
  lemma SamePairsSameChoices(a: ChoicesArg, b: ChoicesArg, rest: seq<string>)
    requires Pairs(a, rest) == Pairs(b, rest)
    ensures NewChoices(a, rest) == NewChoices(b, rest)
  {
  }

  /** Hence, for an enum: `c[name] == value`, `c(value) == name` for every member, and
      iteration yields `(value, name)` in declaration order. */
  lemma EnumLookups(e: Enum)
    ensures var c := NewChoices(FromEnum(e), []);
      && (forall i :: 0 <= i < |e| ==> GetItem(c, e[i].name) == Ok(e[i].value))
      && (forall i :: 0 <= i < |e| ==> Call(c, e[i].value) == Ok(e[i].name))
      && Iter(c) == Swap(EnumItems(e))
  {
    EnumIsDict(e, []);
    DictNamesAreTheDict(EnumItems(e));
    DictReverseLookup(EnumItems(e));
  }

  /** Unknown names and values: the attribute gives `None`, the item and the call raise KeyError. */
  lemma UnknownLookups(first: ChoicesArg, rest: seq<string>, name: string, value: Value)
    ensures var ps := Pairs(first, rest); var c := NewChoices(first, rest);
      (forall i :: 0 <= i < |ps| ==> ps[i].1 != name) ==>
        GetAttr(c, name) == None && GetItem(c, name) == Err(KeyError)
    ensures var ps := Pairs(first, rest); var c := NewChoices(first, rest);
      (forall i :: 0 <= i < |ps| ==> ps[i].0 != value) ==> Call(c, value) == Err(KeyError)
  {
    var ps := Pairs(first, rest);
    if name in Keys(Swap(ps)) {
      var j :| 0 <= j < |ps| && Keys(Swap(ps))[j] == name;
      assert ps[j].1 == name;
    }
    if value in Keys(ps) {
      var j :| 0 <= j < |ps| && Keys(ps)[j] == value;
    }
  }

  /** `str(c)` lists each name once, at its first occurrence among the arguments. */
  lemma StrListsNamesInOrder(first: ChoicesArg, rest: seq<string>)
    ensures ToStr(NewChoices(first, rest)) == Join(Dedup(Keys(Swap(Pairs(first, rest)))), ", ")
  {
  }

  /** `str(Choices("a", "b", "c")) == "a, b, c"`. */
  lemma StrExample()
    ensures ToStr(NewChoices(Name("a"), ["b", "c"])) == "a" + ", " + "b" + ", " + "c"
  {
    var names := ["a", "b", "c"];
    assert names[1..] == ["b", "c"];
    NamesIterAndStr(names);
    JoinThree("a", "b", "c");
  }

  /** `", ".join([x, y, z])`. */
  lemma JoinThree(x: string, y: string, z: string)
    ensures Join([x, y, z], ", ") == x + ", " + y + ", " + z
  {
    assert [x, y, z][1..] == [y, z] && [y, z][1..] == [z];
    assert Join([z], ", ") == z;
    assert Join([y, z], ", ") == y + ", " + z;
    assert Join([x, y, z], ", ") == x + ", " + (y + ", " + z);
  }

  /** When no name is given twice, the copy as written equals the original exactly. */
  lemma DeepCopyAsWrittenExact(first: ChoicesArg, rest: seq<string>)
    requires var ps := Pairs(first, rest); forall i, j :: 0 <= i < j < |ps| ==> ps[i].1 != ps[j].1
    ensures DeepCopyAsWritten(NewChoices(first, rest)) == NewChoices(first, rest)
  {
    var ps := Pairs(first, rest);
    var sw: Dict<string, Value> := Swap(ps);
    var c := NewChoices(first, rest);
    assert c.names == sw && c.values == FromPairs(ps) by {
      FromPairsOfDict(sw);
    }
    assert Swap(sw) == ps by {
      SwapSwap(ps);
    }
    CopyFromNames(c.names);
  }

  /** The copy as written keeps the name map and rebuilds the value map from it. */
  lemma CopyFromNames(names: Dict<string, Value>)
    ensures NewChoices(FromDict(names), []) == Choices(names, FromPairs(Swap(names)))
  {
    assert Pairs(FromDict(names), []) == Swap(names);
    SwapSwap(names);
    FromPairsOfDict(names);
  }

  /** When a name is given twice, the copy as written loses a reverse entry:
      `Choices(E, "a")` with `E.a = "A"` answers `c("A") == "a"`, its copy raises KeyError,
      and the corrected copy still answers `"a"`. */
  lemma DeepCopyAsWrittenLosesValue(e: Enum, rest: seq<string>)
    requires e == [Member("a", Str("A"))] && rest == ["a"]
    ensures Call(NewChoices(FromEnum(e), rest), Str("A")) == Ok("a")
    ensures Call(DeepCopyAsWritten(NewChoices(FromEnum(e), rest)), Str("A")) == Err(KeyError)
    ensures Call(DeepCopy(NewChoices(FromEnum(e), rest)), Str("A")) == Ok("a")
  {
    var ps := Pairs(FromEnum(e), rest);
    RedefinedNamePairs(e, rest);
    RedefinedNameMaps(ps);
    var c := NewChoices(FromEnum(e), rest);
    assert c == Choices(FromPairs(Swap(ps)), FromPairs(ps));
    assert Call(c, Str("A")) == Ok("a");
    CopyFromNames(c.names);
    CopiedReverseMap(c.names);
    assert DeepCopyAsWritten(c) == Choices(c.names, FromPairs(Swap(c.names)));
  }

  lemma RedefinedNamePairs(e: Enum, rest: seq<string>)
    requires e == [Member("a", Str("A"))] && rest == ["a"]
    ensures Pairs(FromEnum(e), rest) == [(Str("A"), "a"), (Str("a"), "a")]
  {
  }

  lemma RedefinedNameMaps(ps: seq<(Value, string)>)
    requires ps == [(Str("A"), "a"), (Str("a"), "a")]
    ensures FromPairs(Swap(ps)) == [("a", Str("a"))]
    ensures Get(FromPairs(ps), Str("A")) == Some("a")
  {
    var d := FromPairs(Swap(ps));
    assert Keys(Swap(ps)) == ["a", "a"];
    assert Dedup(["a", "a"]) == ["a"];
    assert Keys(d) == ["a"];
    assert LastValue(Swap(ps), "a") == Some(Str("a"));
    assert Get(d, "a") == Some(Str("a"));
    assert LastValue(ps, Str("A")) == Some("a");
  }

  lemma CopiedReverseMap(names: Dict<string, Value>)
    requires names == [("a", Str("a"))]
    ensures Str("A") !in Keys(FromPairs(Swap(names)))
  {
    assert Keys(Swap(names)) == [Str("a")];
    DedupMembers(Keys(Swap(names)));
  }
}

=== FILE: errors.dfy ===
/** The Python exceptions the modelled code raises or lets through. An exception
    stands for its class and every subclass of it: `json.JSONDecodeError` and
    `UnicodeDecodeError` are `ValueError` here, which is how `except ValueError`
    (and `suppress(ValueError)`) sees them. */
module Errors {

  datatype Exception =
    | KeyError                    // missing key in a dict lookup
    | ValueError                  // e.g. `Enum(value)` with no such member, malformed JSON
    | TypeError                   // e.g. JSON decoder given a non-text value
    | PluginNotInstalledError     // plugin property used before an application is attached
    | Other(name: string)         // any other exception, raised by code outside the model
}

=== FILE: fields.dfy ===
/** Field value codecs of muffin_peewee/fields.py: the enum fields, the JSON fields
    and the `Choices` helper. A codec turns a Python value into the value handed to
    the database driver (`DbValue`) and back (`PythonValue`); Python's `None` is
    `Option.None` on both sides. */
module Fields {
  import opened Wrappers
  import opened Errors
  import opened PyDict

  /** The Python values a choice or an enum member carries (Python allows any
      hashable value; strings and integers are the ones enum fields store). */
  datatype Value = Str(s: string) | Int(i: int)

  // ---------------------------------------------------------------------------
  // Enums and enum fields (`EnumMixin`, `StrEnumField`, `IntEnumField`)
  // ---------------------------------------------------------------------------

  /** One enum member: `member.name` and `member.value`. */
  datatype Member = Member(name: string, value: Value)

  /** A Python `Enum` class without aliases: members in declaration order, names
      pairwise distinct (Python enforces this) and values pairwise distinct. */
  ghost predicate ValidEnum(members: seq<Member>) {
    forall i, j :: 0 <= i < j < |members| ==>
      members[i].name != members[j].name && members[i].value != members[j].value
  }

  type Enum = e: seq<Member> | ValidEnum(e) witness []

  /** `enum(value)`: the member carrying `value`, or ValueError when there is none. */
  function Lookup(e: seq<Member>, v: Value): (r: Result<Member, Exception>)
    ensures r.Ok? ==> r.value in e && r.value.value == v
    ensures r.Err? ==> r.error == ValueError && forall i :: 0 <= i < |e| ==> e[i].value != v
  {
    if |e| == 0 then Err(ValueError)
    else if e[0].value == v then Ok(e[0])
    else Lookup(e[1..], v)
  }

  /** In an enum without aliases, looking a member up by its own value finds that member. */
  lemma LookupOwnValue(e: Enum, i: nat)
    requires i < |e|
    ensures Lookup(e, e[i].value) == Ok(e[i])
  {
    var r := Lookup(e, e[i].value);
    var j :| 0 <= j < |e| && e[j] == r.value;
  }

  /** An enum field: the enum it stores and the `choices` peewee shows for it. */
  datatype EnumField = EnumField(enum: Enum, choices: seq<(Value, string)>)

  /** `EnumMixin.__init__`: unless `choices` is passed, it defaults to one
      `(value, name)` pair per member, in declaration order. */
  function NewEnumField(e: Enum, choices: Option<seq<(Value, string)>>): (f: EnumField)
    ensures f.enum == e
    ensures choices.Some? ==> f.choices == choices.value
    ensures choices.None? ==>
      |f.choices| == |e| && forall i :: 0 <= i < |e| ==> f.choices[i] == (e[i].value, e[i].name)
  {
    var default := seq(|e|, i requires 0 <= i < |e| => (e[i].value, e[i].name));
    EnumField(e, choices.GetOr(default))
  }

  /** `EnumMixin.db_value`: a member is stored as its value. */
  function EnumDbValue(f: EnumField, v: Option<Member>): (r: Option<Value>)
    ensures v.None? <==> r.None?
    ensures v.Some? ==> r == Some(v.value.value)
  {
    match v
    case None => None
    case Some(m) => Some(m.value)
  }

  /** `EnumMixin.python_value`: a stored value is turned back into the member that
      carries it; a value no member carries raises ValueError. */
  function EnumPythonValue(f: EnumField, v: Option<Value>): (r: Result<Option<Member>, Exception>)
    ensures v.None? ==> r == Ok(None)
    ensures v.Some? && r.Ok? ==> r.value.Some? && r.value.value in f.enum && r.value.value.value == v.value
    ensures v.Some? && r.Err? ==> r.error == ValueError
  {
    match v
    case None => Ok(None)
    case Some(x) =>
      match Lookup(f.enum, x)
      case Ok(m) => Ok(Some(m))
      case Err(e) => Err(e)
  }

  /** Every member survives the trip to the database and back; so does `None`. */
  lemma EnumRoundTrip(f: EnumField, v: Option<Member>)
    requires v.Some? ==> v.value in f.enum
    ensures EnumPythonValue(f, EnumDbValue(f, v)) == Ok(v)
  {
    if v.Some? {
      var i :| 0 <= i < |f.enum| && f.enum[i] == v.value;
      LookupOwnValue(f.enum, i);
    }
  }

  /** Conversely, a stored value that decodes to a member is exactly that member's value. */
  lemma EnumDecodeThenEncode(f: EnumField, x: Value, m: Member)
    requires EnumPythonValue(f, Some(x)) == Ok(Some(m))
    ensures EnumDbValue(f, Some(m)) == Some(x)
  {
  }

  /** With default choices, every choice's stored value decodes to the member it names. */
  lemma DefaultChoicesDecode(e: Enum, i: nat)
    requires i < |e|
    ensures
      var f := NewEnumField(e, None);
      && EnumPythonValue(f, Some(f.choices[i].0)) == Ok(Some(Member(f.choices[i].1, f.choices[i].0)))
  {
    LookupOwnValue(e, i);
  }

  // ---------------------------------------------------------------------------
  // JSON fields
  // ---------------------------------------------------------------------------

  /** The serializer pair a JSON field uses (`json.dumps`/`json.loads` by default).
      Decoding may fail; encoding is total on the values the field is given. */
  datatype JsonCodec<!J> = JsonCodec(dumps: J -> string, loads: string -> Result<J, Exception>)

  /** The law assumed of the serializer pair: decoding an encoding gives the value back. */
  ghost predicate LawfulCodec<J(!new)>(c: JsonCodec<J>) {
    forall x :: c.loads(c.dumps(x)) == Ok(x)
  }

  /** A `JSONLikeField`: its serializer pair and its column type (`"text"` unless a
      subclass overrides `field_type`). */
  datatype JsonLikeField<!J> = JsonLikeField(codec: JsonCodec<J>, fieldType: string)

  const TextFieldType: string := "text"

  /** What `JSONLikeField.python_value` hands back for a non-`None` value: the decoded
      value, or the database value itself when decoding is skipped or fails. */
  datatype Loaded<J> = Decoded(data: J) | Unchanged(raw: string)

  /** `JSONLikeField.db_value`: `None` stays `None`; anything else is serialized. */
  function JsonDbValue<J>(f: JsonLikeField<J>, v: Option<J>): (r: Option<string>)
    ensures v.None? <==> r.None?
    ensures v.Some? ==> r == Some(f.codec.dumps(v.value))
  {
    match v
    case None => None
    case Some(x) => Some(f.codec.dumps(x))
  }

  /** `JSONLikeField.python_value`: a text column value is decoded; TypeError and
      ValueError from the decoder are swallowed and the value is returned as it was;
      any other decoder error propagates. */
  function JsonPythonValue<J>(f: JsonLikeField<J>, v: Option<string>): (r: Result<Option<Loaded<J>>, Exception>)
    ensures v.None? ==> r == Ok(None)
    ensures v.Some? && f.fieldType != TextFieldType ==> r == Ok(Some(Unchanged(v.value)))
    ensures r.Err? ==> v.Some? && f.fieldType == TextFieldType && f.codec.loads(v.value) == Err(r.error)
                       && r.error !in {TypeError, ValueError}
    ensures r.Ok? && r.value.Some? && r.value.value.Decoded? ==>
              v.Some? && f.codec.loads(v.value) == Ok(r.value.value.data)
    ensures v.Some? && f.fieldType == TextFieldType && f.codec.loads(v.value).Ok? ==>
              r == Ok(Some(Decoded(f.codec.loads(v.value).value)))
    ensures v.Some? && f.fieldType == TextFieldType && f.codec.loads(v.value).Err? ==>
              if f.codec.loads(v.value).error in {TypeError, ValueError}
              then r == Ok(Some(Unchanged(v.value)))
              else r == Err(f.codec.loads(v.value).error)
  {
    match v
    case None => Ok(None)
    case Some(s) =>
      if f.fieldType != TextFieldType then Ok(Some(Unchanged(s)))
      else
        match f.codec.loads(s)
        case Ok(x) => Ok(Some(Decoded(x)))
        case Err(e) =>
          if e == TypeError || e == ValueError then Ok(Some(Unchanged(s))) else Err(e)
  }

  /** Under the serializer law, a value stored by a text JSON field is read back unchanged. */
  lemma JsonRoundTrip<J(!new)>(f: JsonLikeField<J>, v: Option<J>)
    requires LawfulCodec(f.codec) && f.fieldType == TextFieldType
    ensures JsonPythonValue(f, JsonDbValue(f, v)) == Ok(if v.None? then None else Some(Decoded(v.value)))
  {
  }

  /** A text value the decoder rejects with TypeError or ValueError is returned as it was. */
  lemma JsonUndecodableUnchanged<J>(f: JsonLikeField<J>, s: string)
    requires f.codec.loads(s) == Err(TypeError) || f.codec.loads(s) == Err(ValueError)
    ensures JsonPythonValue(f, Some(s)) == Ok(Some(Unchanged(s)))
  {
  }

  /** `JSONAsyncPGField.db_value`: the Python value is handed to the asyncpg driver as
      it is, with no serialization, where `JSONLikeField` would have serialized it. */
  function AsyncPGDbValue<J>(v: Option<J>): (r: Option<J>)
    ensures r == v
  {
    v
  }

  // ---------------------------------------------------------------------------
  // Choices
  // ---------------------------------------------------------------------------

  /** The first argument of `Choices(...)`: one plain name, a `{name: value}` dict, or an Enum. */
  datatype ChoicesArg = Name(name: string) | FromDict(items: Dict<string, Value>) | FromEnum(e: Enum)

  /** A `Choices` object: `_map` (name -> value) and `_rmap` (value -> name). */
  datatype Choices = Choices(names: Dict<string, Value>, values: Dict<Value, string>)

  /** The `(value, name)` pairs the first argument contributes: `(name, name)` for a
      plain name, `(value, name)` per dict item or per enum member, in their order. */
  function ArgPairs(first: ChoicesArg): (ps: seq<(Value, string)>)
    ensures first.Name? ==> ps == [(Str(first.name), first.name)]
    ensures first.FromDict? ==> |ps| == |first.items|
    ensures first.FromDict? ==>
      forall i :: 0 <= i < |first.items| ==> ps[i] == (first.items[i].1, first.items[i].0)
    ensures first.FromEnum? ==> |ps| == |first.e|
    ensures first.FromEnum? ==>
      forall i :: 0 <= i < |first.e| ==> ps[i] == (first.e[i].value, first.e[i].name)
  {
    match first
    case Name(n) => [(Str(n), n)]
    case FromDict(d) => Swap(d)
    case FromEnum(e) => seq(|e|, i requires 0 <= i < |e| => (e[i].value, e[i].name))
  }

  /** The `(name, name)` pairs the further plain-name arguments contribute. */
  function NamePairs(names: seq<string>): (ps: seq<(Value, string)>)
    ensures |ps| == |names| && forall i :: 0 <= i < |names| ==> ps[i] == (Str(names[i]), names[i])
  {
    seq(|names|, i requires 0 <= i < |names| => (Str(names[i]), names[i]))
  }

  /** All pairs `Choices.__init__` collects (`pw_choices`): those of the first
      argument, then one `(name, name)` per further name. */
  function Pairs(first: ChoicesArg, rest: seq<string>): (ps: seq<(Value, string)>)
    ensures |ps| == |ArgPairs(first)| + |rest|
    ensures ps[..|ArgPairs(first)|] == ArgPairs(first)
    ensures forall i :: 0 <= i < |rest| ==> ps[|ArgPairs(first)| + i] == (Str(rest[i]), rest[i])
  {
    ArgPairs(first) + NamePairs(rest)
  }

  /** `Choices(first, *rest)`: `_map` is built from the pairs turned round, `_rmap`
      from the pairs as they are; in both, later pairs overwrite earlier ones. The
      result knows exactly the names and the values of its arguments. */
  function NewChoices(first: ChoicesArg, rest: seq<string>): (c: Choices)
    ensures forall n :: n in Keys(c.names) <==> n in Keys(Swap(Pairs(first, rest)))
    ensures forall v :: v in Keys(c.values) <==> v in Keys(Pairs(first, rest))
  {
    var ps := Pairs(first, rest);
    DedupMembers(Keys(Swap(ps)));
    DedupMembers(Keys(ps));
    Choices(FromPairs(Swap(ps)), FromPairs(ps))
  }

  /** `choices.<name>` (`__getattr__` with its default `None`). */
  function GetAttr(c: Choices, name: string): (r: Option<Value>)
    ensures r.Some? <==> name in Keys(c.names)
    ensures r.Some? ==> GetItem(c, name) == Ok(r.value)
    ensures r.None? ==> GetItem(c, name) == Err(KeyError)
  {
    Get(c.names, name)
  }

  /** `choices[name]`: the value of `name`; KeyError for an unknown name. */
  function GetItem(c: Choices, name: string): (r: Result<Value, Exception>)
    ensures r.Ok? <==> name in Keys(c.names)
    ensures r.Err? ==> r.error == KeyError
    ensures forall i :: 0 <= i < |c.names| && c.names[i].0 == name ==> r == Ok(c.names[i].1)
  {
    match Get(c.names, name)
    case Some(v) => Ok(v)
    case None => Err(KeyError)
  }

  /** `choices(value)`: the name of `value`; KeyError for an unknown value. */
  function Call(c: Choices, value: Value): (r: Result<string, Exception>)
    ensures r.Ok? <==> value in Keys(c.values)
    ensures r.Err? ==> r.error == KeyError
    ensures forall i :: 0 <= i < |c.values| && c.values[i].0 == value ==> r == Ok(c.values[i].1)
  {
    match Get(c.values, value)
    case Some(n) => Ok(n)
    case None => Err(KeyError)
  }

  /** `list(choices)`: the `(value, name)` items of `_rmap`, in insertion order. */
  function Iter(c: Choices): (items: seq<(Value, string)>)
    ensures forall i :: 0 <= i < |items| ==> Call(c, items[i].0) == Ok(items[i].1)
    ensures forall v :: v in Keys(c.values) <==> v in Keys(items)
  {
    c.values
  }

  /** `sep.join(parts)`. */
  function Join(parts: seq<string>, sep: string): string
  {
    if |parts| == 0 then ""
    else if |parts| == 1 then parts[0]
    else parts[0] + sep + Join(parts[1..], sep)
  }

  /** `sep.join(parts)` starts with the first part, ends with the last, and is as
      long as the parts together plus one separator between each two. */
  lemma JoinShape(parts: seq<string>, sep: string)
    ensures |parts| == 0 ==> Join(parts, sep) == ""
    ensures |parts| > 0 ==> parts[0] <= Join(parts, sep)
    ensures |parts| > 0 ==>
      var last := parts[|parts| - 1]; var r := Join(parts, sep);
      |last| <= |r| && r[|r| - |last|..] == last
    ensures |parts| > 0 ==> |Join(parts, sep)| == TotalLength(parts) + (|parts| - 1) * |sep|
  {
    if |parts| > 0 {
      JoinSuffix(parts, sep);
      JoinLength(parts, sep);
    }
  }

  lemma {:induction false} JoinSuffix(parts: seq<string>, sep: string)
    requires |parts| > 0
    ensures var last := parts[|parts| - 1]; var r := Join(parts, sep);
      |last| <= |r| && r[|r| - |last|..] == last
  {
    if |parts| > 1 {
      var tail := parts[1..];
      var rest := Join(tail, sep);
      var r := Join(parts, sep);
      var last := parts[|parts| - 1];
      JoinSuffix(tail, sep);
      assert tail[|tail| - 1] == last;
      assert r == parts[0] + sep + rest;
      assert r[|r| - |last|..] == rest[|rest| - |last|..];
    }
  }

  lemma {:induction false} JoinLength(parts: seq<string>, sep: string)
    requires |parts| > 0
    ensures |Join(parts, sep)| == TotalLength(parts) + (|parts| - 1) * |sep|
  {
    var tail := parts[1..];
    assert TotalLength(parts) == |parts[0]| + TotalLength(tail);
    if |parts| > 1 {
      JoinLength(tail, sep);
    }
  }

  /** The lengths of all the parts added up. */
  function TotalLength(parts: seq<string>): nat {
    if |parts| == 0 then 0 else |parts[0]| + TotalLength(parts[1..])
  }

  /** `str(choices)`: the names, joined by `", "`, in insertion order: it is empty
      exactly when there is no name (or the one name is empty), opens with the first
      name and closes with the last. */
  function ToStr(c: Choices): (r: string)
    ensures |c.names| == 0 ==> r == ""
    ensures |c.names| > 0 ==> c.names[0].0 <= r
    ensures |c.names| > 0 ==>
      var last := c.names[|c.names| - 1].0; |last| <= |r| && r[|r| - |last|..] == last
    ensures |c.names| > 1 ==> |r| >= TotalLength(Keys(c.names)) + 2
    ensures |c.names| > 0 ==> |r| == TotalLength(Keys(c.names)) + 2 * (|c.names| - 1)
    ensures |c.names| > 1 ==> r[|c.names[0].0|..|c.names[0].0| + 2] == ", "
  {
    JoinShape(Keys(c.names), ", ");
    Join(Keys(c.names), ", ")
  }

  /** `copy.deepcopy(choices)` as written: a new `Choices` built from `_map` alone. */
  function DeepCopyAsWritten(c: Choices): (r: Choices)
    ensures r.names == c.names
  {
    FromPairsOfDict(c.names);
    SwapSwap(c.names);
    assert Pairs(FromDict(c.names), []) == Swap(c.names);
    NewChoices(FromDict(c.names), [])
  }

  /** `copy.deepcopy(choices)` as intended: both maps copied. */
  function DeepCopy(c: Choices): (r: Choices)
    ensures r == c
  {
    FromPairsOfDict(c.names);
    FromPairsOfDict(c.values);
    Choices(FromPairs(c.names), FromPairs(c.values))
  }
}

=== FILE: plugin.dfy ===
/** The plugin of muffin_peewee/__init__.py: its configuration, its model registry
    (models registered on a placeholder manager before setup and rebound to the live
    manager at setup), the middleware it installs, the migration commands it
    registers, its lifecycle hooks and its pytest fixture. */
module Plugin {
  import opened Wrappers
  import opened Errors
  import opened Traces

  /** A model class, by identity. */
  type ModelId = nat

  /** `Plugin.defaults`: the options the plugin reads (`connection_params` is handed
      to the manager untouched and is not modelled). */
  datatype Config = Config(
    connection: string,
    autoConnection: bool,
    autoTransaction: bool,
    migrationsEnabled: bool,
    migrationsPath: string,
    pytestSetupDb: bool)

  const Defaults: Config := Config("sqlite:///db.sqlite", true, true, true, "migrations", true)

  /** The backend aio-databases resolves a connection URL to: its `name` and `db_type`. */
  datatype Backend = Backend(name: string, dbType: string)

  /** A peewee-aio manager: an identity, the URL it was made for, its backend, and the
      models registered on it. */
  datatype Manager = Manager(id: nat, url: string, backend: Backend, models: set<ModelId>)

  /** The placeholder manager every plugin starts with, so that models can be
      registered before an application exists. */
  const PlaceholderId: nat := 0
  const Placeholder: Manager := Manager(PlaceholderId, "dummy://localhost", Backend("dummy", "dummy"), {})

  /** An entry of the application's middleware chain: the plugin's own middleware
      (`get_middleware`, which fixed `auto_transaction` when it was made) or another. */
  datatype Middleware = ConnectionMiddleware(autoTransaction: bool) | OtherMiddleware(name: string)

  /** What the plugin changes on the Muffin application: its middleware chain
      (outermost first) and its management commands. */
  datatype App = App(middlewares: seq<Middleware>, commands: seq<string>)

  /** The peewee-migrate router: its migrations directory and the manager whose
      database it migrates. */
  datatype Router = Router(migrateDir: string, database: nat)

  /** The plugin and everything it touches. `binding` is each registered model's
      `_manager`; `nextId` is the identity the next manager gets; `trace` is what it
      did to pools, connections and transactions. */
  datatype State = State(
    cfg: Config,
    app: Option<App>,
    manager: Manager,
    binding: map<ModelId, nat>,
    router: Option<Router>,
    nextId: nat,
    trace: seq<Event>)

  /** Every model registered on the current manager is bound to it, and manager
      identities are never reused. */
  ghost predicate Valid(s: State) {
    && s.manager.id < s.nextId
    && (forall m :: m in s.manager.models ==> m in s.binding && s.binding[m] == s.manager.id)
    && (forall m :: m in s.binding ==> s.binding[m] < s.nextId)
  }

  /** `Plugin()` with no application: the default options and the placeholder manager. */
  function Init(): (s: State)
    ensures Valid(s) && s.manager.id == PlaceholderId && s.app.None?
  {
    State(Defaults, None, Placeholder, map[], None, PlaceholderId + 1, [])
  }

  // ---------------------------------------------------------------------------
  // Model registry
  // ---------------------------------------------------------------------------

  /** `manager.register(model)`: the model joins the manager's models and its
      `_manager` becomes that manager. */
  function RegisterOn(mgr: Manager, binding: map<ModelId, nat>, m: ModelId): (r: (Manager, map<ModelId, nat>))
    ensures r.0 == mgr.(models := mgr.models + {m})
    ensures m in r.1 && r.1[m] == mgr.id
    ensures forall k :: k != m ==> (k in r.1 <==> k in binding) && (k in binding ==> r.1[k] == binding[k])
  {
    (mgr.(models := mgr.models + {m}), binding[m := mgr.id])
  }

  /** `for model in order: manager.register(model)`. */
  function RegisterAll(mgr: Manager, binding: map<ModelId, nat>, order: seq<ModelId>): (r: (Manager, map<ModelId, nat>))
    ensures r.0 == mgr.(models := mgr.models + (set m | m in order))
    ensures forall m :: m in r.1 <==> m in binding || m in order
    ensures forall m :: m in r.1 ==> r.1[m] == if m in order then mgr.id else binding[m]
    decreases |order|
  {
    if |order| == 0 then (mgr, binding)
    else
      var step := RegisterOn(mgr, binding, order[0]);
      assert forall m :: m in order <==> m == order[0] || m in order[1..];
      RegisterAll(step.0, step.1, order[1..])
  }

  /** Rebinding the same models to the same manager a second time changes nothing. */
  lemma RegisterAllIdempotent(mgr: Manager, binding: map<ModelId, nat>, order: seq<ModelId>)
    ensures var once := RegisterAll(mgr, binding, order);
      RegisterAll(once.0, once.1, order) == once
  {
    var once := RegisterAll(mgr, binding, order);
    var twice := RegisterAll(once.0, once.1, order);
    assert once.0.id == mgr.id;
    assert twice.0.models == once.0.models;
    assert twice.1.Keys == once.1.Keys;
    assert forall m :: m in twice.1 ==> twice.1[m] == once.1[m];
    assert twice.1 == once.1;
    assert twice.0 == once.0;
  }

  /** `Plugin.register(model)`: registers the model on the plugin's current manager
      (the placeholder before setup) and returns the model itself. */
  function Register(s: State, m: ModelId): (r: (State, ModelId))
    ensures r.1 == m
    ensures r.0.manager == s.manager.(models := s.manager.models + {m})
    ensures m in r.0.binding && r.0.binding[m] == s.manager.id
    ensures forall k :: k != m && k in s.binding ==> k in r.0.binding && r.0.binding[k] == s.binding[k]
    ensures r.0.trace == s.trace && r.0.app == s.app
    ensures r.0 == s.(manager := r.0.manager, binding := r.0.binding)
    ensures r.0.binding.Keys == s.binding.Keys + {m}
    ensures Valid(s) ==> Valid(r.0)
  {
    var step := RegisterOn(s.manager, s.binding, m);
    (s.(manager := step.0, binding := step.1), m)
  }

  // ---------------------------------------------------------------------------
  // Setup
  // ---------------------------------------------------------------------------

  /** The management commands `setup` registers when migrations are enabled. */
  const MigrationCommands: seq<string> :=
    ["peewee-migrate", "peewee-create", "peewee-rollback", "peewee-list", "peewee-clear", "peewee-merge"]

  /** `get_middleware()` installed with `insert_first=True`, when `auto_connection` is set. */
  function InstallMiddleware(cfg: Config, mws: seq<Middleware>): (r: seq<Middleware>)
    ensures cfg.autoConnection ==> |r| == |mws| + 1 && r[0] == ConnectionMiddleware(cfg.autoTransaction) && r[1..] == mws
    ensures !cfg.autoConnection ==> r == mws
  {
    if cfg.autoConnection then [ConnectionMiddleware(cfg.autoTransaction)] + mws else mws
  }

  /** The migration commands, added when `migrations_enabled` is set. */
  function AddCommands(cfg: Config, commands: seq<string>): (r: seq<string>)
    ensures |commands| <= |r| && r[..|commands|] == commands
    ensures forall c :: c in r <==> c in commands || (cfg.migrationsEnabled && c in MigrationCommands)
  {
    if cfg.migrationsEnabled then commands + MigrationCommands else commands
  }

  /** `Plugin.setup(app)` with the resolved options `cfg`: a new manager for
      `cfg.connection` (whose backend is `backend`), every model of the current
      manager registered on it (`order` is the order `list(self.manager)` yields
      them in), then the router and commands, then the middleware. */
  function Setup(s: State, app: App, cfg: Config, backend: Backend, order: seq<ModelId>): (t: State)
    requires forall m :: m in order <==> m in s.manager.models
    ensures t.manager.url == cfg.connection && t.manager.backend == backend
    ensures t.manager.models == s.manager.models
    ensures forall m :: m in s.manager.models ==> m in t.binding && t.binding[m] == t.manager.id
    ensures forall m :: m in s.binding && m !in s.manager.models ==> m in t.binding && t.binding[m] == s.binding[m]
    ensures t.binding.Keys == s.binding.Keys + s.manager.models
    ensures Valid(s) ==> Valid(t) && t.manager.id != s.manager.id
    ensures t.app == Some(App(InstallMiddleware(cfg, app.middlewares), AddCommands(cfg, app.commands)))
    ensures cfg.migrationsEnabled ==> t.router == Some(Router(cfg.migrationsPath, t.manager.id))
    ensures !cfg.migrationsEnabled ==> t.router == s.router
    ensures t.cfg == cfg
    ensures t.trace == s.trace
  {
    var live := Manager(s.nextId, cfg.connection, backend, {});
    var rebound := RegisterAll(live, s.binding, order);
    assert (set m | m in order) == s.manager.models;
    var router := if cfg.migrationsEnabled then Some(Router(cfg.migrationsPath, live.id)) else s.router;
    var app' := App(InstallMiddleware(cfg, app.middlewares), AddCommands(cfg, app.commands));
    State(cfg, Some(app'), rebound.0, rebound.1, router, s.nextId + 1, s.trace)
  }

  /** A model registered before the plugin has an application is bound to the
      placeholder manager; after setup it is bound to the new, live manager. */
  lemma DelayedRegistration(m: ModelId, app: App, cfg: Config, backend: Backend)
    ensures var before := Register(Init(), m).0;
      && before.binding[m] == PlaceholderId
      && var after := Setup(before, app, cfg, backend, [m]);
      && after.binding[m] == after.manager.id
      && after.manager.id != PlaceholderId
      && after.manager.url == cfg.connection
  {
  }

  // ---------------------------------------------------------------------------
  // Lifecycle
  // ---------------------------------------------------------------------------

  /** `startup`: connects the current manager. */
  function Startup(s: State): (t: State)
    ensures t.(trace := s.trace) == s
    ensures |t.trace| == |s.trace| + 1 && t.trace[..|s.trace|] == s.trace
    ensures Connects(t.trace, s.manager.id) == Connects(s.trace, s.manager.id) + 1
    ensures forall id :: id != s.manager.id ==> Connects(t.trace, id) == Connects(s.trace, id)
    ensures forall id :: Disconnects(t.trace, id) == Disconnects(s.trace, id)
  {
    s.(trace := s.trace + [Open(Pool(s.manager.id))])
  }

  /** `shutdown`: disconnects the current manager. */
  function Shutdown(s: State): (t: State)
    ensures t.(trace := s.trace) == s
    ensures |t.trace| == |s.trace| + 1 && t.trace[..|s.trace|] == s.trace
    ensures Disconnects(t.trace, s.manager.id) == Disconnects(s.trace, s.manager.id) + 1
    ensures forall id :: id != s.manager.id ==> Disconnects(t.trace, id) == Disconnects(s.trace, id)
    ensures forall id :: Connects(t.trace, id) == Connects(s.trace, id)
  {
    s.(trace := s.trace + [Close(Pool(s.manager.id), false)])
  }

  /** `async with plugin` entry: connects the current manager and returns the plugin. */
  function AEnter(s: State): (t: State)
    ensures t == Startup(s)
  {
    s.(trace := s.trace + [Open(Pool(s.manager.id))])
  }

  /** `async with plugin` exit: disconnects, whatever exception `exc` is passing. */
  function AExit(s: State, exc: Option<Exception>): (t: State)
    ensures t.trace == s.trace + [Close(Pool(s.manager.id), exc.Some?)]
    ensures t.manager == s.manager && t.binding == s.binding
    ensures t.(trace := s.trace) == s
  {
    s.(trace := s.trace + [Close(Pool(s.manager.id), exc.Some?)])
  }

  /** How many times the trace connects / disconnects manager `id`. */
  function Connects(t: seq<Event>, id: nat): nat {
    multiset(t)[Open(Pool(id))]
  }

  function Disconnects(t: seq<Event>, id: nat): nat {
    multiset(t)[Close(Pool(id), false)] + multiset(t)[Close(Pool(id), true)]
  }

  /** Startup then shutdown connect and disconnect the plugin's manager exactly once,
      leave every other manager alone, and keep a properly nested trace nested. */
  lemma StartupShutdownOnce(s: State)
    ensures var t := Shutdown(Startup(s));
      && Connects(t.trace, s.manager.id) == Connects(s.trace, s.manager.id) + 1
      && Disconnects(t.trace, s.manager.id) == Disconnects(s.trace, s.manager.id) + 1
      && (forall id :: id != s.manager.id ==>
            Connects(t.trace, id) == Connects(s.trace, id) && Disconnects(t.trace, id) == Disconnects(s.trace, id))
      && (Balanced(s.trace) ==> Balanced(t.trace))
  {
    var id := s.manager.id;
    var t1 := Startup(s);
    assert t1.manager == t1.(trace := s.trace).manager;
    var t := Shutdown(t1);
    if Balanced(s.trace) {
      var added := [Open(Pool(id)), Close(Pool(id), false)];
      assert t.trace == s.trace + added;
      assert Nesting(added, []) == Some([]) by {
        assert added[1..] == [Close(Pool(id), false)];
        assert [] + [Pool(id)] == [Pool(id)];
        assert Nesting(added, []) == Nesting(added[1..], [Pool(id)]);
        assert Nesting([Close(Pool(id), false)], [Pool(id)]) == Nesting([], []);
      }
      BalancedAppend(s.trace, added);
    }
  }

  /** `async with plugin` has the same effect as startup then shutdown, whether or
      not the body raised (apart from what the disconnect is told). */
  lemma ContextIsLifespan(s: State, exc: Option<Exception>)
    ensures AExit(AEnter(s), exc).trace == s.trace + [Open(Pool(s.manager.id)), Close(Pool(s.manager.id), exc.Some?)]
    ensures AExit(AEnter(s), None) == Shutdown(Startup(s))
  {
  }

  // ---------------------------------------------------------------------------
  // Tables
  // ---------------------------------------------------------------------------

  /** The models `create_tables(*models)` / `drop_tables(*models)` act on: those
      given, or every model registered on the current manager when none is given. */
  function Targets(s: State, models: seq<ModelId>): (r: set<ModelId>)
    ensures |models| == 0 ==> r == s.manager.models
    ensures |models| > 0 ==> forall m :: m in r <==> m in models
  {
    if |models| == 0 then s.manager.models else set m | m in models
  }

  /** `create_tables(*models)`: one table creation, for the targeted models. */
  function CreateTables(s: State, models: seq<ModelId>): (t: State)
    ensures t.(trace := s.trace) == s
    ensures |t.trace| == |s.trace| + 1 && t.trace[..|s.trace|] == s.trace
    ensures t.trace[|s.trace|].TablesCreated?
    ensures forall m :: m in t.trace[|s.trace|].models <==>
      if |models| == 0 then m in s.manager.models else m in models
  {
    s.(trace := s.trace + [TablesCreated(Targets(s, models))])
  }

  /** `drop_tables(*models)`: one table drop, for the targeted models. */
  function DropTables(s: State, models: seq<ModelId>): (t: State)
    ensures t.(trace := s.trace) == s
    ensures |t.trace| == |s.trace| + 1 && t.trace[..|s.trace|] == s.trace
    ensures t.trace[|s.trace|].TablesDropped?
    ensures forall m :: m in t.trace[|s.trace|].models <==>
      if |models| == 0 then m in s.manager.models else m in models
  {
    s.(trace := s.trace + [TablesDropped(Targets(s, models))])
  }

  // ---------------------------------------------------------------------------
  // Middleware
  // ---------------------------------------------------------------------------

  /** `get_middleware()`: runs `inner` inside a connection and, with `auto_transaction`,
      inside a transaction opened within that connection. */
  function ConnectionScope(autoTransaction: bool, conn: Fx, tx: Fx, inner: Run): (r: Run)
    ensures conn.enterError.Some? ==> r == Run([], Raised(conn.enterError.value))
    ensures conn.enterError.None? ==>
      && |r.trace| >= 2
      && r.trace[0] == Open(Connection)
      && r.trace[|r.trace| - 1].Close? && r.trace[|r.trace| - 1].res == Connection
    ensures conn.enterError.None? && !autoTransaction ==> r.trace[1..|r.trace| - 1] == inner.trace
    ensures conn.enterError.None? && autoTransaction && tx.enterError.None? ==>
      && |r.trace| == |inner.trace| + 4
      && r.trace[1] == Open(Transaction)
      && r.trace[2..|r.trace| - 2] == inner.trace
      && r.trace[|r.trace| - 2] == Close(Transaction, inner.outcome.Raised?)
    ensures conn.exitError.None? && (autoTransaction ==> tx == Clean) && conn.enterError.None? ==>
      r.outcome == inner.outcome
  {
    if autoTransaction then Within(Connection, conn, Within(Transaction, tx, inner))
    else Within(Connection, conn, inner)
  }

  /** A request through a middleware chain (outermost first) to a handler that ends
      with `handled`. Every instance of the plugin's middleware opens its scopes with
      the effects `conn` and `tx`. */
  function Serve(mws: seq<Middleware>, conn: Fx, tx: Fx, handled: Outcome): (r: Run)
    ensures conn.enterError.None? && tx.enterError.None? ==> Handle in r.trace
    ensures conn == Clean && tx == Clean ==> r.outcome == handled
    decreases |mws|
  {
    if |mws| == 0 then Run([Handle], handled)
    else
      var inner := Serve(mws[1..], conn, tx, handled);
      match mws[0]
      case ConnectionMiddleware(auto) => ConnectionScope(auto, conn, tx, inner)
      case OtherMiddleware(n) => Run([Through(n)] + inner.trace, inner.outcome)
  }

  /** With `auto_transaction`: connection, transaction, handler, transaction closed,
      connection closed, whether the handler returned or raised; its result or
      exception comes out unchanged, and both scopes are told whether it raised. */
  lemma TransactionMiddlewareTrace(handled: Outcome)
    ensures ConnectionScope(true, Clean, Clean, Run([Handle], handled)) ==
      Run([Open(Connection), Open(Transaction), Handle,
           Close(Transaction, handled.Raised?), Close(Connection, handled.Raised?)], handled)
  {
  }

  /** Without `auto_transaction`: only the connection wraps the handler, and no
      transaction event ever occurs, whatever the contexts do. */
  lemma ConnectionMiddlewareTrace(handled: Outcome, conn: Fx, tx: Fx)
    ensures ConnectionScope(false, Clean, tx, Run([Handle], handled)) ==
      Run([Open(Connection), Handle, Close(Connection, handled.Raised?)], handled)
    ensures forall e :: e in ConnectionScope(false, conn, tx, Run([Handle], handled)).trace ==>
      !(e.Open? && e.res == Transaction) && !(e.Close? && e.res == Transaction)
  {
  }

  /** Whatever the connection and transaction contexts do: a connection that was
      opened is closed, last; the handler runs only when both scopes were entered;
      and when entering fails, that exception is what the request ends with. */
  lemma MiddlewareReleases(auto: bool, conn: Fx, tx: Fx, handled: Outcome)
    ensures var r := ConnectionScope(auto, conn, tx, Run([Handle], handled));
      && (conn.enterError.Some? ==> r == Run([], Raised(conn.enterError.value)))
      && (conn.enterError.None? ==>
            r.trace[0] == Open(Connection) && r.trace[|r.trace| - 1].Close? && r.trace[|r.trace| - 1].res == Connection)
      && (Handle in r.trace <==> conn.enterError.None? && (auto ==> tx.enterError.None?))
      && (conn.enterError.None? && auto && tx.enterError.Some? && conn.exitError.None? ==>
            r.outcome == Raised(tx.enterError.value))
  {
  }

  /** Every request through any chain leaves a properly nested trace. */
  lemma {:induction false} ServeBalanced(mws: seq<Middleware>, conn: Fx, tx: Fx, handled: Outcome)
    ensures Balanced(Serve(mws, conn, tx, handled).trace)
    decreases |mws|
  {
    if |mws| == 0 {
      assert Nesting([Handle], []) == Nesting([], []);
    } else {
      var inner := Serve(mws[1..], conn, tx, handled);
      ServeBalanced(mws[1..], conn, tx, handled);
      match mws[0]
      case ConnectionMiddleware(auto) =>
        if auto {
          WithinBalanced(Transaction, tx, inner);
          WithinBalanced(Connection, conn, Within(Transaction, tx, inner));
        } else {
          WithinBalanced(Connection, conn, inner);
        }
      case OtherMiddleware(n) =>
        assert Nesting([Through(n)] + inner.trace, []) == Nesting(inner.trace, []) by {
          assert ([Through(n)] + inner.trace)[1..] == inner.trace;
        }
    }
  }

  /** After setup, the plugin's middleware is the outermost: with `auto_connection`
      every other middleware and the handler run inside its scopes; without it, the
      chain is untouched. */
  lemma SetupServe(s: State, app: App, cfg: Config, backend: Backend, order: seq<ModelId>,
                   conn: Fx, tx: Fx, handled: Outcome)
    requires forall m :: m in order <==> m in s.manager.models
    ensures var t := Setup(s, app, cfg, backend, order);
      && (cfg.autoConnection ==>
            Serve(t.app.value.middlewares, conn, tx, handled) ==
            ConnectionScope(cfg.autoTransaction, conn, tx, Serve(app.middlewares, conn, tx, handled)))
      && (!cfg.autoConnection ==>
            Serve(t.app.value.middlewares, conn, tx, handled) == Serve(app.middlewares, conn, tx, handled))
  {
    if cfg.autoConnection {
      assert ([ConnectionMiddleware(cfg.autoTransaction)] + app.middlewares)[1..] == app.middlewares;
    }
  }

  // ---------------------------------------------------------------------------
  // Properties
  // ---------------------------------------------------------------------------

  /** `Plugin.Model`: the base model class of the current manager; raises before an
      application is attached. */
  function ModelBase(s: State): (r: Result<nat, Exception>)
    ensures r.Err? <==> s.app.None?
    ensures r.Err? ==> r.error == PluginNotInstalledError
    ensures r.Ok? ==> r.value == s.manager.id
  {
    if s.app.None? then Err(PluginNotInstalledError) else Ok(s.manager.id)
  }

  /** The JSON field classes `Plugin.JSONField` chooses between. */
  datatype JsonFieldKind = JSONAsyncPGField | JSONPGField | JSONLikeField

  /** `Plugin.JSONField`: by the current manager's backend; raises before an
      application is attached. */
  function JsonFieldFor(s: State): (r: Result<JsonFieldKind, Exception>)
    ensures r.Err? <==> s.app.None?
    ensures r.Err? ==> r.error == PluginNotInstalledError
    ensures r == Ok(JSONAsyncPGField) <==> s.app.Some? && s.manager.backend.name == "asyncpg"
    ensures r == Ok(JSONPGField) <==>
      s.app.Some? && s.manager.backend.name != "asyncpg" && s.manager.backend.dbType == "postgresql"
  {
    if s.app.None? then Err(PluginNotInstalledError)
    else if s.manager.backend.name == "asyncpg" then Ok(JSONAsyncPGField)
    else if s.manager.backend.dbType == "postgresql" then Ok(JSONPGField)
    else Ok(JSONLikeField)
  }

  /** Before setup both properties raise; after setup `Model` belongs to the new
      manager and `JSONField` follows the backend the configured URL resolved to. */
  lemma PropertiesAfterSetup(s: State, app: App, cfg: Config, backend: Backend, order: seq<ModelId>)
    requires forall m :: m in order <==> m in s.manager.models
    ensures ModelBase(Init()) == Err(PluginNotInstalledError)
    ensures JsonFieldFor(Init()) == Err(PluginNotInstalledError)
    ensures var t := Setup(s, app, cfg, backend, order);
      && ModelBase(t) == Ok(t.manager.id)
      && JsonFieldFor(t) ==
           if backend.name == "asyncpg" then Ok(JSONAsyncPGField)
           else if backend.dbType == "postgresql" then Ok(JSONPGField)
           else Ok(JSONLikeField)
  {
  }

  // ---------------------------------------------------------------------------
  // Migration commands
  // ---------------------------------------------------------------------------

  /** A management command as invoked; a `None` name takes the command's default. */
  datatype Command =
    | Migrate(name: Option<string>, fake: bool)
    | Create(name: Option<string>, auto: bool)
    | Rollback
    | List
    | Clear
    | Merge(name: Option<string>)

  function CommandName(c: Command): string {
    match c
    case Migrate(_, _) => "peewee-migrate"
    case Create(_, _) => "peewee-create"
    case Rollback => "peewee-rollback"
    case List => "peewee-list"
    case Clear => "peewee-clear"
    case Merge(_) => "peewee-merge"
  }

  /** The `auto` argument `peewee-create` hands the router: `False`, or the list of
      the current manager's models (an empty list counts as false for the router). */
  datatype AutoArg = NoAuto | AutoModels(models: set<ModelId>)

  /** The router call a command makes. */
  datatype RouterCall =
    | RunMigrations(upTo: Option<string>, fake: bool)
    | CreateMigration(name: string, auto: AutoArg)
    | RollbackLatest
    | ListMigrations
    | ClearHistory
    | MergeMigrations(name: string)

  /** A command the application does not have. */
  const NoSuchCommand: Exception := Other("UsageError")

  /** Running a management command: the router call it makes, on the router made at
      setup; a command that was not registered does not exist. */
  function Invoke(s: State, c: Command): (r: Result<(Router, RouterCall), Exception>)
    ensures r.Ok? ==> s.app.Some? && CommandName(c) in s.app.value.commands && s.router == Some(r.value.0)
    ensures r.Ok? && c.Create? ==>
      r.value.1 == CreateMigration(c.name.GetOr("auto"), if c.auto then AutoModels(s.manager.models) else NoAuto)
    ensures r.Ok? && c.Merge? ==> r.value.1 == MergeMigrations(c.name.GetOr("initial"))
    ensures r.Ok? && c.Migrate? ==> r.value.1 == RunMigrations(c.name, c.fake)
    ensures r.Ok? && c.Rollback? ==> r.value.1 == RollbackLatest
    ensures r.Ok? && c.List? ==> r.value.1 == ListMigrations
    ensures r.Ok? && c.Clear? ==> r.value.1 == ClearHistory
    ensures s.app.Some? && CommandName(c) in s.app.value.commands && s.router.Some? ==> r.Ok?
    ensures r.Err? ==> r.error == NoSuchCommand
  {
    if s.app.None? || CommandName(c) !in s.app.value.commands || s.router.None? then Err(NoSuchCommand)
    else
      var call := match c
        case Migrate(name, fake) => RunMigrations(name, fake)
        case Create(name, auto) =>
          CreateMigration(name.GetOr("auto"), if auto then AutoModels(s.manager.models) else NoAuto)
        case Rollback => RollbackLatest
        case List => ListMigrations
        case Clear => ClearHistory
        case Merge(name) => MergeMigrations(name.GetOr("initial"));
      Ok((s.router.value, call))
  }

  /** After setup on an application without them, the six commands exist exactly
      when migrations are enabled, and they drive the router made for the new manager. */
  lemma CommandsIffMigrations(s: State, app: App, cfg: Config, backend: Backend, order: seq<ModelId>, c: Command)
    requires forall m :: m in order <==> m in s.manager.models
    requires forall i :: 0 <= i < |app.commands| ==> app.commands[i] !in MigrationCommands
    ensures var t := Setup(s, app, cfg, backend, order);
      && (Invoke(t, c).Ok? <==> cfg.migrationsEnabled)
      && (Invoke(t, c).Ok? ==> Invoke(t, c).value.0 == Router(cfg.migrationsPath, t.manager.id))
  {
    var t := Setup(s, app, cfg, backend, order);
    assert CommandName(c) in MigrationCommands;
    if cfg.migrationsEnabled {
      assert CommandName(c) in t.app.value.commands;
    }
  }

  // ---------------------------------------------------------------------------
  // pytest fixture
  // ---------------------------------------------------------------------------

  /** A trace with no scope events is properly nested. */
  lemma {:induction false} NoScopesBalanced(t: seq<Event>)
    requires forall i :: 0 <= i < |t| ==> !t[i].Open? && !t[i].Close?
    ensures Balanced(t)
    decreases |t|
  {
    if |t| > 0 {
      NoScopesBalanced(t[1..]);
    }
  }

  /** `conftest()` around a test that registers the models `registered` and ends with
      `result`. With `pytest_setup_db`: inside `async with plugin, plugin.connection()`
      the tables of the models registered so far are created, the test runs, and, if
      it returned, the tables of all models registered by then are dropped (a raising
      test skips the drop). Otherwise only the test runs. */
  function Conftest(s: State, registered: seq<ModelId>, result: Outcome): (r: (State, Outcome))
    ensures r.1 == result
    ensures r.0.manager.models == s.manager.models + (set m | m in registered)
    ensures Valid(s) ==> Valid(r.0)
    ensures !s.cfg.pytestSetupDb ==> r.0.trace == s.trace + [RunTest]
    ensures s.cfg.pytestSetupDb ==>
      r.0.trace == s.trace +
        [Open(Pool(s.manager.id)), Open(Connection), TablesCreated(s.manager.models), RunTest] +
        (if result.Returned? then [TablesDropped(r.0.manager.models)] else []) +
        [Close(Connection, result.Raised?), Close(Pool(s.manager.id), result.Raised?)]
  {
    var rebound := RegisterAll(s.manager, s.binding, registered);
    var after := s.(manager := rebound.0, binding := rebound.1);
    if s.cfg.pytestSetupDb then
      var scoped := Within(Pool(s.manager.id), Clean, Within(Connection, Clean, TestRun(s, after, result)));
      (after.(trace := s.trace + scoped.trace), scoped.outcome)
    else
      (after.(trace := s.trace + [RunTest]), result)
  }

  /** The body of `async with plugin, plugin.connection()` in `conftest`. */
  function TestRun(before: State, after: State, result: Outcome): Run {
    Run([TablesCreated(Targets(before, [])), RunTest] +
        (if result.Returned? then [TablesDropped(Targets(after, []))] else []), result)
  }

  /** The fixture keeps a properly nested trace nested, whether the test passes or raises. */
  lemma ConftestBalanced(s: State, registered: seq<ModelId>, result: Outcome)
    requires Balanced(s.trace)
    ensures Balanced(Conftest(s, registered, result).0.trace)
  {
    var rebound := RegisterAll(s.manager, s.binding, registered);
    var after := s.(manager := rebound.0, binding := rebound.1);
    if s.cfg.pytestSetupDb {
      var inner := TestRun(s, after, result);
      NoScopesBalanced(inner.trace);
      WithinBalanced(Connection, Clean, inner);
      WithinBalanced(Pool(s.manager.id), Clean, Within(Connection, Clean, inner));
      BalancedAppend(s.trace, Within(Pool(s.manager.id), Clean, Within(Connection, Clean, inner)).trace);
    } else {
      NoScopesBalanced([RunTest]);
      BalancedAppend(s.trace, [RunTest]);
    }
  }

  /** The tables dropped after a passing test are those created before it plus those
      of the models the test registered. */
  lemma ConftestDropsWhatItCreated(s: State, registered: seq<ModelId>)
    requires s.cfg.pytestSetupDb
    ensures var t := Conftest(s, registered, Returned("")).0;
      TablesDropped(s.manager.models + (set m | m in registered)) in t.trace
  {
    var t := Conftest(s, registered, Returned("")).0;
    var k := |s.trace| + 4;
    assert t.trace[k] == TablesDropped(t.manager.models);
  }
}

=== FILE: pydict.dfy ===
/** Python's built-in `dict`, as the code under study uses it: an insertion-ordered
    association list whose keys are pairwise distinct. Assigning to a key that is
    already present overwrites its value in place (the key keeps its first position);
    assigning to a new key appends it. */
module PyDict {
  import opened Wrappers

  ghost predicate DistinctKeys<K, V>(d: seq<(K, V)>) {
    forall i, j :: 0 <= i < j < |d| ==> d[i].0 != d[j].0
  }

  /** A dict is its list of items, in insertion order. */
  type Dict<K, V> = d: seq<(K, V)> | DistinctKeys(d) witness []

  /** The first components of a list of pairs (`dict.keys()` for a dict). */
  function Keys<K, V>(ps: seq<(K, V)>): (ks: seq<K>)
    ensures |ks| == |ps|
    ensures forall i :: 0 <= i < |ps| ==> ks[i] == ps[i].0
  {
    seq(|ps|, i requires 0 <= i < |ps| => ps[i].0)
  }

  /** Each pair turned round: `[(v, k) for k, v in ps]`. */
  function Swap<A, B>(ps: seq<(A, B)>): (qs: seq<(B, A)>)
    ensures |qs| == |ps|
    ensures forall i :: 0 <= i < |ps| ==> qs[i] == (ps[i].1, ps[i].0)
  {
    seq(|ps|, i requires 0 <= i < |ps| => (ps[i].1, ps[i].0))
  }

  /** Position of `k` in `d`, if any. */
  function Find<K(==,!new), V>(d: Dict<K, V>, k: K): (r: Option<nat>)
    ensures r.Some? ==> r.value < |d| && d[r.value].0 == k
    ensures r.None? <==> k !in Keys(d)
  {
    if |d| == 0 then None
    else if d[0].0 == k then Some(0)
    else
      match Find(d[1..], k)
      case None => None
      case Some(i) => Some(i + 1)
  }

  /** `d.get(k)`: the value stored under `k`, or `None`. */
  function Get<K(==,!new), V>(d: Dict<K, V>, k: K): (r: Option<V>)
    ensures r.Some? <==> k in Keys(d)
    ensures forall i :: 0 <= i < |d| && d[i].0 == k ==> r == Some(d[i].1)
  {
    match Find(d, k)
    case None => None
    case Some(i) => Some(d[i].1)
  }

  /** `d[k] = v`. */
  function Set<K(==,!new), V>(d: Dict<K, V>, k: K, v: V): (r: Dict<K, V>)
    ensures Get(r, k) == Some(v)
    ensures forall k' :: k' != k ==> Get(r, k') == Get(d, k')
    ensures Keys(r) == if k in Keys(d) then Keys(d) else Keys(d) + [k]
  {
    match Find(d, k)
    case Some(i) =>
      var r := d[i := (k, v)];
      assert Keys(r) == Keys(d) by {
        assert forall j :: 0 <= j < |d| ==> Keys(r)[j] == Keys(d)[j];
      }
      assert DistinctKeys(r) by {
        forall a, b | 0 <= a < b < |r| ensures r[a].0 != r[b].0 {
          assert r[a].0 == d[a].0 && r[b].0 == d[b].0;
        }
      }
      r
    case None =>
      var r := d + [(k, v)];
      assert Keys(r) == Keys(d) + [k] by {
        assert forall j :: 0 <= j < |d| ==> Keys(r)[j] == Keys(d)[j];
      }
      assert DistinctKeys(r) by {
        forall a, b | 0 <= a < b < |r| ensures r[a].0 != r[b].0 {
          if b == |d| {
            assert Keys(d)[a] == r[a].0;
          }
        }
      }
      r
  }

  /** Reference reading of `dict(ps)` by key: the value of the LAST pair whose key is `k`. */
  function LastValue<K(==,!new), V>(ps: seq<(K, V)>, k: K): Option<V> {
    if |ps| == 0 then None
    else if ps[|ps| - 1].0 == k then Some(ps[|ps| - 1].1)
    else LastValue(ps[..|ps| - 1], k)
  }

  /** Reference reading of `dict(ps)` by order: every key once, at its FIRST occurrence. */
  function Dedup<K(==,!new)>(ks: seq<K>): seq<K> {
    if |ks| == 0 then []
    else
      var p := Dedup(ks[..|ks| - 1]);
      if ks[|ks| - 1] in p then p else p + [ks[|ks| - 1]]
  }

  /** `dict(ps)` (and `{k: v for k, v in ps}`): the pairs assigned one after another. */
  function FromPairs<K(==,!new), V>(ps: seq<(K, V)>): (r: Dict<K, V>)
    ensures forall k :: Get(r, k) == LastValue(ps, k)
    ensures Keys(r) == Dedup(Keys(ps))
  {
    if |ps| == 0 then []
    else
      var prefix := ps[..|ps| - 1];
      var (k, v) := ps[|ps| - 1];
      assert Keys(prefix) == Keys(ps)[..|ps| - 1] && Keys(ps)[|ps| - 1] == k;
      assert forall x :: LastValue(ps, x) == if x == k then Some(v) else LastValue(prefix, x);
      Set(FromPairs(prefix), k, v)
  }

  /** Building a dict from the items of a dict gives the same dict back. */
  lemma {:induction false} FromPairsOfDict<K(!new), V>(d: Dict<K, V>)
    ensures FromPairs(d) == d
  {
    if |d| > 0 {
      var prefix: Dict<K, V> := d[..|d| - 1];
      var (k, v) := d[|d| - 1];
      FromPairsOfDict(prefix);
      LastKeyFresh(d);
      assert FromPairs(d) == Set(FromPairs(prefix), k, v);
      SetNew(prefix, k, v);
      assert prefix + [(k, v)] == d;
    }
  }

  /** The last key of a dict does not occur before it. */
  lemma LastKeyFresh<K, V>(d: Dict<K, V>)
    requires |d| > 0
    ensures d[|d| - 1].0 !in Keys(d[..|d| - 1])
  {
    var prefix := d[..|d| - 1];
    forall i | 0 <= i < |prefix| ensures Keys(prefix)[i] != d[|d| - 1].0 {
      assert prefix[i] == d[i];
    }
  }

  /** Assigning to a key the dict does not have appends the pair. */
  lemma SetNew<K(!new), V>(d: Dict<K, V>, k: K, v: V)
    requires k !in Keys(d)
    ensures Set(d, k, v) == d + [(k, v)]
  {
    assert Find(d, k).None?;
  }

  /** Swapping twice gives the pairs back. */
  lemma SwapSwap<A, B>(ps: seq<(A, B)>)
    ensures Swap(Swap(ps)) == ps
  {
  }

  /** A key occurs in the dict built from `ps` exactly when some pair carries it. */
  lemma {:induction false} DedupMembers<K(!new)>(ks: seq<K>)
    ensures forall k :: k in Dedup(ks) <==> k in ks
  {
    if |ks| > 0 {
      DedupMembers(ks[..|ks| - 1]);
      assert ks == ks[..|ks| - 1] + [ks[|ks| - 1]];
    }
  }

  /** Dedup of a list without repeats is that list. */
  lemma {:induction false} DedupOfDistinct<K(!new)>(ks: seq<K>)
    requires forall i, j :: 0 <= i < j < |ks| ==> ks[i] != ks[j]
    ensures Dedup(ks) == ks
  {
    if |ks| > 0 {
      var p := ks[..|ks| - 1];
      DedupOfDistinct(p);
      assert ks[|ks| - 1] !in p;
      assert p + [ks[|ks| - 1]] == ks;
    }
  }

  /** When every pair carrying `k` carries the same value `v`, the dict built from the
      pairs maps `k` to `v`, whichever of them came last. */
  lemma {:induction false} LastValueUniform<K(!new), V>(ps: seq<(K, V)>, k: K, v: V)
    requires k in Keys(ps)
    requires forall i :: 0 <= i < |ps| && ps[i].0 == k ==> ps[i].1 == v
    ensures LastValue(ps, k) == Some(v)
  {
    var n := |ps| - 1;
    if ps[n].0 != k {
      var prefix := ps[..n];
      var j :| 0 <= j < |ps| && Keys(ps)[j] == k;
      assert Keys(prefix)[j] == k;
      LastValueUniform(prefix, k, v);
    }
  }
}

=== FILE: traces.dfy ===
/** Effects of the plugin as an event trace. The database manager, its pool, its
    connections and its transactions belong to other libraries; here each is a
    resource that is opened and closed, and Python's `async with` is `Within`. */
module Traces {
  import opened Wrappers
  import opened Errors

  /** What the plugin opens and closes: a manager's pool (`connect`/`disconnect`),
      a pooled connection scope, a transaction scope. */
  datatype Resource = Pool(manager: nat) | Connection | Transaction

  datatype Event =
    | Open(res: Resource)
      /** `raising`: an exception is passing through when the resource is closed. It is
          what a context's `__aexit__` is given (a transaction commits when it is false
          and rolls back when it is true); a pool's `disconnect` is given nothing. */
    | Close(res: Resource, raising: bool)
    | Handle                          // the request handler was invoked
    | Through(middleware: string)     // another middleware of the chain ran
    | RunTest                         // the test body ran (the `yield` of `conftest`)
    | TablesCreated(models: set<nat>)
    | TablesDropped(models: set<nat>)

  /** How a piece of code ends: it returns (a response) or raises. */
  datatype Outcome = Returned(response: string) | Raised(error: Exception)

  /** The events some code caused, and how it ended. */
  datatype Run = Run(trace: seq<Event>, outcome: Outcome)

  /** What a context manager does on its own account: its `__aenter__` may raise, and
      its `__aexit__` may raise (e.g. a failing commit); `None` means it does not. */
  datatype Fx = Fx(enterError: Option<Exception>, exitError: Option<Exception>)

  const Clean: Fx := Fx(None, None)

  /** `async with <context for res>: <body>` as Python runs it. If entering raises,
      the body never runs and nothing is closed. Otherwise the body runs and the exit
      always runs, told whether the body raised; an exception raised by the exit
      replaces the body's outcome, otherwise the body's outcome passes unchanged. */
  function Within(res: Resource, fx: Fx, body: Run): (r: Run)
    ensures fx.enterError.Some? ==> r == Run([], Raised(fx.enterError.value))
    ensures fx.enterError.None? ==>
      && |r.trace| == |body.trace| + 2
      && r.trace[0] == Open(res)
      && r.trace[|r.trace| - 1] == Close(res, body.outcome.Raised?)
      && r.trace[1..|r.trace| - 1] == body.trace
    ensures fx.enterError.None? && fx.exitError.None? ==> r.outcome == body.outcome
    ensures fx.enterError.None? && fx.exitError.Some? ==> r.outcome == Raised(fx.exitError.value)
  {
    match fx.enterError
    case Some(e) => Run([], Raised(e))
    case None =>
      var after := match fx.exitError
        case Some(e) => Raised(e)
        case None => body.outcome;
      Run([Open(res)] + body.trace + [Close(res, body.outcome.Raised?)], after)
  }

  /** Replays a trace against a stack of open resources (innermost last): the stack
      left at the end, or `None` if something is closed that is not the innermost
      open resource. */
  function Nesting(t: seq<Event>, open: seq<Resource>): Option<seq<Resource>>
    decreases |t|
  {
    if |t| == 0 then Some(open)
    else match t[0]
      case Open(r) => Nesting(t[1..], open + [r])
      case Close(r, _) =>
        if |open| > 0 && open[|open| - 1] == r then Nesting(t[1..], open[..|open| - 1])
        else None
      case _ => Nesting(t[1..], open)
  }

  /** Properly nested: every resource opened is closed, innermost first, and nothing
      is closed that was not open. */
  predicate Balanced(t: seq<Event>) {
    Nesting(t, []) == Some([])
  }

  /** Replaying two traces one after the other. */
  lemma {:induction false} NestingAppend(a: seq<Event>, b: seq<Event>, open: seq<Resource>)
    ensures Nesting(a + b, open) ==
      match Nesting(a, open)
      case None => None
      case Some(mid) => Nesting(b, mid)
    decreases |a|
  {
    if |a| > 0 {
      assert (a + b)[0] == a[0] && (a + b)[1..] == a[1..] + b;
      match a[0]
      case Open(r) => NestingAppend(a[1..], b, open + [r]);
      case Close(r, _) =>
        if |open| > 0 && open[|open| - 1] == r {
          NestingAppend(a[1..], b, open[..|open| - 1]);
        }
      case _ => NestingAppend(a[1..], b, open);
    } else {
      assert a + b == b;
    }
  }

  /** A trace that replays from `open` to `close` does the same above any outer stack. */
  lemma {:induction false} NestingUnder(t: seq<Event>, outer: seq<Resource>, open: seq<Resource>, close: seq<Resource>)
    requires Nesting(t, open) == Some(close)
    ensures Nesting(t, outer + open) == Some(outer + close)
    decreases |t|
  {
    if |t| > 0 {
      match t[0]
      case Open(r) =>
        assert outer + open + [r] == outer + (open + [r]);
        NestingUnder(t[1..], outer, open + [r], close);
      case Close(r, _) =>
        assert (outer + open)[..|outer + open| - 1] == outer + open[..|open| - 1];
        NestingUnder(t[1..], outer, open[..|open| - 1], close);
      case _ => NestingUnder(t[1..], outer, open, close);
    }
  }

  /** Two balanced traces one after the other are balanced. */
  lemma BalancedAppend(a: seq<Event>, b: seq<Event>)
    requires Balanced(a) && Balanced(b)
    ensures Balanced(a + b)
  {
    NestingAppend(a, b, []);
  }

  /** `async with` keeps a balanced body balanced, whatever the context does. */
  lemma WithinBalanced(res: Resource, fx: Fx, body: Run)
    requires Balanced(body.trace)
    ensures Balanced(Within(res, fx, body).trace)
  {
    if fx.enterError.None? {
      var close := [Close(res, body.outcome.Raised?)];
      NestingAppend([Open(res)], body.trace + close, []);
      NestingAppend(body.trace, close, [res]);
      NestingUnder(body.trace, [res], [], []);
      assert [res] + [] == [res] && [] + [res] == [res];
      assert Nesting([Open(res)], []) == Some([res]);
      assert Nesting(body.trace, [res]) == Some([res]);
      assert Nesting(close, [res]) == Some([]);
      assert [Open(res)] + body.trace + close == [Open(res)] + (body.trace + close);
    }
  }
}

=== FILE: wrappers.dfy ===
/** Wrappers shared by the model: Python's `None`-or-value and
    value-or-raised-exception outcomes. */
module Wrappers {

  /** A value that may be Python's `None`. */
  datatype Option<+T> = None | Some(value: T) {

    /** The value, or `default` when this is `None` (Python's `dict.get(k, default)`). */
    function GetOr(default: T): T {
      match this
      case Some(v) => v
      case None => default
    }
  }

  /** Either a returned value or a raised error. */
  datatype Result<+T, +E> = Ok(value: T) | Err(error: E)
}
